=== FILE: README.md ===
# log-sign authentication core, in Dafny

A model of the credential store and session gate of the log-sign library-membership
web application (`app.py`). The model covers:

- the `users` table, with its UNIQUE username column and AUTOINCREMENT id;
- `hash_password` and `insert_user`;
- the decision logic of the `signup`, `login` and `logout` routes;
- the session guard in front of the `dashboard`, `borrow`, `return` and `membership` pages.

The model has five modules, one per file:

- `Optional` (`optional.dfy`): the None/Some datatype.
- `Bcrypt` (`bcrypt.dfy`): bcrypt reduced to a `Hasher` with two uninterpreted total
  functions, `hashpw` and `checkpw`. The predicate `Sound` states the one fact the
  application relies on: `checkpw(p, hashpw(p, s))` holds for every password and salt.
  The random salt of `bcrypt.gensalt()` is a parameter.
- `Users` (`users.dfy`): the `users` table. It is kept as its rows in rowid order plus
  the AUTOINCREMENT counter. `Select` is `SELECT * ... WHERE username = ?`, `FetchOne`
  is `fetchone()`, `InsertRow` is the INSERT statement with its UNIQUE check, and
  `InsertUser` is `insert_user`. `Valid` is the table invariant: usernames are unique,
  and ids are positive and increase with rowid.
- `Auth` (`auth.dfy`): the application state, which is the table plus the session slot
  (`Anonymous` or `SignedIn(username)`). Every route is a pure transition. `Run` serves a
  sequence of requests. `Inv` is `Valid` together with "the session names an existing user".
- `AsWritten` (`as_written.dfy`): the login check exactly as the code has it, which
  differs from what it evidently intends (see Findings).

What is stored in the password column is `hashpw(password, salt)`, never the
argument itself: `Users.InsertUser` states that the new row's password field is
exactly that hash, and that `checkpw` accepts it for the password whenever bcrypt's
round-trip property holds.

Two facts of the code worth stating plainly:

- `insert_user` answers a boolean, not the new id.
- A successful login while someone else is logged in overwrites `session['username']`
  with the new username.

## Model

| member | source | states |
|---|---|---|
| Bcrypt.HashPassword | app.py:58-60 | the hash of a password is accepted by `checkpw` for that password, whenever bcrypt's round-trip property holds |
| Users.Select | app.py:113 | the selected rows are exactly the table's rows with the queried username: each has it and comes from the table, and every row that has it is selected; the result is empty iff no row has that username |
| Users.FetchOne | app.py:113-114 | `fetchone` finds a row iff some row has the username, and the row it returns has that username and is in the table |
| Users.SelectAtMostOne | app.py:24 | under the UNIQUE constraint on username, a lookup by username returns zero or one row |
| Users.FetchOneUnique | app.py:113-114 | under the UNIQUE constraint, the row fetched for a username is the one row holding it |
| Users.FindByUsername | app.py:113-114 | a front-to-back scan of the table returns exactly the row `fetchone` returns |
| Users.InsertRow | app.py:69-73 | the INSERT aborts iff the username is already present; otherwise it appends one row with the next AUTOINCREMENT id and advances the counter |
| Users.AppendFreshRow | app.py:69-73 | inserting a row with a username no row has makes it the one row found for that username, and every other username's lookup stays the same |
| Users.AppendKeepsValid | app.py:20-24 | appending a row with a fresh username and the next AUTOINCREMENT id keeps usernames unique and ids increasing, and the new id differs from every existing one |
| Users.InsertUser | app.py:63-78 | succeeds iff the username is absent. On failure the table is unchanged. On success: exactly one row is added; the new row has the hashed password (accepted by `checkpw`); every other username's lookup is unchanged; the new id differs from all existing ids; the table invariant is preserved |
| Auth.SignupMessage | app.py:98-101 | signup shows "Username already exists. Try another one." exactly when the username was taken |
| Auth.Signup | app.py:97-101 | registration creates the user iff the username is free, leaves the state unchanged when it is taken, keeps every existing row, never touches the session, and preserves the invariant |
| Auth.Login | app.py:113-122 | corrected check (see Findings): sets the session to the submitted username iff a row with exactly that username exists and `checkpw` accepts the password against its stored hash. On failure the state, including an earlier login, is unchanged. The users table is never changed |
| Auth.LoginMessage | app.py:119-122 | login shows "Invalid username or password." exactly on failure, whichever the cause |
| Auth.Logout | app.py:167 | logout always leaves the session anonymous, never fails and does not touch the users table |
| Auth.DeniedMessage | app.py:129 | every denial message tells the visitor they must log in |
| Auth.DeniedMessagesDistinct | app.py:144-160 | the four protected pages each have their own denial message (app.py:129, 144, 152, 160) |
| Auth.Guard | app.py:128-130 | a protected page is served iff the session holds a username, and is served to that user; otherwise the visitor is redirected to index with the page's message. The same guard appears at app.py:143-145, 151-153 and 159-161 |
| Auth.DashboardRoute | app.py:127-139 | the dashboard is shown iff someone is logged in, and then it shows that user's own row |
| Auth.InitInv | app.py:18-30 | a freshly created database with no session satisfies the invariant |
| Auth.RunPreservesInv | app.py:24 | every sequence of signups, logins and logouts keeps usernames unique, ids increasing, and the session pointing at an existing user |
| Auth.RunKeepsRows | app.py:63-78 | rows are only ever added: every row survives any sequence of requests |
| Auth.SignupThenLogin | app.py:113-118 | a user who has just registered can log in with the same password, and the session then names them |
| Auth.DistinctSignupsDistinctIds | app.py:20 | registering two distinct fresh usernames succeeds twice and gives them distinct ids |
| Auth.DuplicateSignupKeepsFirst | app.py:74-76 | registering a taken username fails and leaves the existing user's row as it was |
| Auth.FailuresIndistinguishable | app.py:117-122 | an unknown username and a wrong password give the same state, the same outcome and the same message |
| Auth.LogoutIdempotent | app.py:167 | logging out twice is the same as logging out once, and the users table is untouched |
| Auth.SessionTransitions | app.py:118 | from an anonymous session, only a successful login leads to a signed-in session, and that session holds the submitted username. Signup never changes the session; logout always makes it anonymous |
| Auth.GuardFollowsSession | app.py:143-145 | the guard denies every page on a fresh start, serves it right after a successful login, and denies it again after logout |
| Auth.AliceScenario | app.py:97-122 | on a fresh start, alice registers with id 1, logs in with her password, is refused with a wrong one, and is denied the dashboard after logout |
| AsWritten.FetchedTuple | app.py:19-29 | the tuple `fetchone` returns has the nine columns in table order, so index 4 is the username (a `str`) and index 5 the stored hash (`bytes`) |
| AsWritten.EncodeChar | app.py:117 | the UTF-8 encoding of one character takes one to four bytes, and exactly one byte iff the character is ASCII |
| AsWritten.Utf8 | app.py:117 | the UTF-8 encoding of a string has at least as many bytes as the string has characters and at most four times as many, exactly as many for an ASCII string |
| AsWritten.EncodeUtf8 | app.py:117 | `.encode('utf-8')` raises AttributeError exactly when the value is not a `str`, and a `str` encodes to at least as many bytes as it has characters |
| AsWritten.CheckpwRaw | app.py:117 | `bcrypt.checkpw` raises ValueError exactly when bcrypt refuses the password (a NUL byte, in 3.x) or its second argument is not a bcrypt salt, and otherwise answers the abstract check |
| AsWritten.Login | app.py:117-122 | the login check as written changes the session only on a successful check, leaves the state as it was otherwise, and raises only for an existing username |
| AsWritten.ChecksUsername | app.py:117 | as written, `.encode` never raises; a login raises ValueError iff the username exists and either its bytes are not a bcrypt salt or bcrypt refuses the password; otherwise an existing user logs in iff `checkpw` accepts the password against the username's own bytes; an unknown username is refused |
| AsWritten.IgnoresStoredHash | app.py:117 | as written, two tables with the same usernames give the same login outcome, whatever hashes they store |
| AsWritten.RegisteredUserCannotLogIn | app.py:117 | alice, just registered with "s3cret", is logged in by the corrected check but gets ValueError from the check as written |
| AsWritten.HashShapedUsernameLogsIn | app.py:117-118 | as written, a username that is itself a bcrypt hash of x logs in with password x (one bcrypt does not refuse), whatever password it was registered with |
| AsWritten.AnyPasswordRevealsOrdinaryUsers | app.py:117-122 | as written, an existing username that is not a bcrypt salt answers a server error with every password, while an unknown one gets the ordinary refusal, so the response reveals which ordinary usernames exist |
| AsWritten.RejectedPasswordRevealsUsers | app.py:117-122 | as written, a password bcrypt refuses answers a server error for an existing username and the ordinary refusal for an unknown one, so it reveals which usernames exist |

## Left out

- Database plumbing (`connect_db`, `setup_database`, app.py:9-55): replaced by the in-memory `Users.Table`. Storage errors other than the UNIQUE violation are not modelled. Such errors, for example a missing database file, surface in the code as uncaught exceptions.
- The `books` and `borrow_records` tables and the bodies of `borrow`, `return_book` and `membership`: the code contains only placeholder comments there. Only their session guard is modelled.
- bcrypt internals: the work factor, salt randomness, the salt and parameters encoded in the hash, and constant-time comparison. `hashpw` and `checkpw` stay uninterpreted. The only fact assumed about them is `Bcrypt.Sound`, and it appears as a `requires` wherever it is used.
- Bcrypt.HashPassword: `hashpw` is total here. `hash_password` runs outside the `try` (app.py:66), so where a bcrypt release rejects a password with ValueError the error escapes `insert_user` as a server error and no row is inserted. That happens for a NUL byte in 3.x and for more than 72 bytes in 5.x; `Users.InsertUser` and `Auth.Signup` would answer success there instead. The silent truncation to 72 bytes in earlier releases is also not modelled.
- Auth.Login: the corrected check uses bcrypt's total `checkpw`. The corrected call `checkpw(password.encode('utf-8'), user[5])` would still raise ValueError, a server error, on a password bcrypt refuses (a NUL byte in 3.x, more than 72 bytes in 5.x); the model answers the total `checkpw`'s verdict there. The partial check is modelled only for the code as written (`AsWritten.CheckpwRaw`).
- Auth.FailuresIndistinguishable: holds for the corrected check because `checkpw` is total there. With a password bcrypt refuses, even the corrected call would answer a server error for an existing username and the ordinary refusal for an unknown one, revealing which usernames exist; `AsWritten.RejectedPasswordRevealsUsers` proves this for the code as written.
- The UTF-8 encoding of the plaintext before hashing and checking is folded into `hashpw`/`checkpw`.
- Flask machinery is reduced to outcomes and message strings: template rendering, flash categories, `redirect`/`url_for`, cookie signing, `secret_key` and session expiry.
- The GET branches of `signup` and `login`: they only render a form.
- Form parsing: a missing form field makes Flask answer 400 before any logic runs. The profile fields, `age` included, are opaque strings. SQLite's type affinity is not modelled.
- The NOT NULL constraints: every column receives a non-None value (the form's strings, and the `bytes` from `hashpw` for the password), so they cannot fire. `third_name` is therefore a plain string.
- Concurrency: concurrent signups and SQLite locking are not modelled. The model is sequential, and each INSERT is atomic.
- The 64-bit limit on AUTOINCREMENT ids: ids are unbounded naturals.
- `viewusers.py`: a script that prints every row, with no behaviour to verify.

## Findings

| source | as written | input that shows it | evidently intended | confidence | as-written member | corrected member |
|---|---|---|---|---|---|---|
| app.py:117 | `bcrypt.checkpw(password.encode('utf-8'), user[4].encode('utf-8'))`: after `SELECT *`, `user[4]` is the username column (app.py:20-24), so the password is checked against the username's bytes and the stored hash is never read; bcrypt raises ValueError when those bytes are not a salt, so every existing ordinary username answers a server error whatever the password, while an unknown one gets the flash message | register alice with password "s3cret", then log in as alice with "s3cret": `checkpw` raises ValueError on "alice" (`AsWritten.RegisteredUserCannotLogIn`); a username that is a bcrypt hash of x logs in with x (`AsWritten.HashShapedUsernameLogsIn`) | `bcrypt.checkpw(password.encode('utf-8'), user[5])`: check against the stored hash, already `bytes`, so that a registered user with the right password is logged in and no one else is | high; not executed | AsWritten.Login | Auth.Login |

=== FILE: as_written.dfy ===
/**
 The login check as written. `SELECT *` returns the columns of `users` in
 table order: id, first_name, second_name, third_name, username, password,
 location, age, best_books_category. The check indexes that row with 4,
 which is the username column, not the password column at 5. The username
 is a `str`, so `.encode('utf-8')` succeeds, and `bcrypt.checkpw` receives
 the username's bytes in place of the stored hash. bcrypt reads that
 argument as a salt: for an ordinary username it cannot parse it and raises
 ValueError, so the route answers with a server error; for a username shaped
 like a bcrypt salt or hash the password is checked against the username
 itself. The stored hash is never consulted. An unknown username never
 reaches the call, because `and` short-circuits on the missing row. Since
 `checkpw` also raises on a password bcrypt refuses (one holding a NUL byte
 in 3.x, one longer than 72 bytes in 5.x), such a password answers a server error for an
 existing username and the usual refusal for an unknown one.

 `Auth.Login` is the corrected check (verify against the stored hash at
 index 5), which the rest of the model uses; this module keeps the
 behaviour as written and shows where the two part.
 */
module AsWritten {

  import opened Optional
  import Bcrypt
  import Users
  import Auth

  /** The Python values a fetched row can hold. */
  datatype PyValue = PyInt(number: int) | PyStr(chars: string) | PyBytes(bytes: seq<bv8>)

  datatype PyError = AttributeError | ValueError

  datatype PyResult<T> = Value(value: T) | Raised(error: PyError)

  /** The tuple `fetchone` returns for a row after `SELECT *`, columns in table order. */
  function FetchedTuple(user: Users.User): (t: seq<PyValue>)
    ensures |t| == 9
    ensures t[4] == PyStr(user.username)
    ensures t[5] == PyBytes(user.password)
  {
    [ PyInt(user.id),
      PyStr(user.profile.firstName),
      PyStr(user.profile.secondName),
      PyStr(user.profile.thirdName),
      PyStr(user.username),
      PyBytes(user.password),
      PyStr(user.profile.location),
      PyStr(user.profile.age),
      PyStr(user.profile.bestBooksCategory) ]
  }

  /** The UTF-8 encoding of one character: one to four bytes. */
  function EncodeChar(c: char): (b: seq<bv8>)
    ensures 1 <= |b| <= 4
    ensures (c as int < 0x80) <==> (|b| == 1)
  {
    var n := c as int;
    if n < 0x80 then [n as bv8]
    else if n < 0x800 then [(0xC0 + n / 0x40) as bv8, (0x80 + n % 0x40) as bv8]
    else if n < 0x1_0000 then
      [(0xE0 + n / 0x1000) as bv8, (0x80 + (n / 0x40) % 0x40) as bv8, (0x80 + n % 0x40) as bv8]
    else
      [(0xF0 + n / 0x4_0000) as bv8, (0x80 + (n / 0x1000) % 0x40) as bv8,
       (0x80 + (n / 0x40) % 0x40) as bv8, (0x80 + n % 0x40) as bv8]
  }

  /** `str.encode('utf-8')`. */
  function Utf8(s: string): (b: seq<bv8>)
    ensures |s| <= |b| <= 4 * |s|
    ensures (forall i :: 0 <= i < |s| ==> s[i] as int < 0x80) ==> |b| == |s|
  {
    if |s| == 0 then [] else EncodeChar(s[0]) + Utf8(s[1..])
  }

  /** `value.encode('utf-8')`: defined on `str`, absent on `int` and `bytes`. */
  function EncodeUtf8(v: PyValue): (r: PyResult<seq<bv8>>)
    ensures r.Raised? <==> !v.PyStr?
    ensures r.Value? ==> |r.value| >= |v.chars|
  {
    match v
    case PyStr(s) => Value(Utf8(s))
    case _ => Raised(AttributeError)
  }

  /**
   The inputs on which `bcrypt.checkpw` raises ValueError instead of
   answering. A `Bcrypt.Hasher` says what it answers on acceptable inputs;
   `parses` says which second arguments are usable salts, and `rejects`
   which passwords bcrypt refuses outright (a NUL byte in 3.x, more than 72
   bytes in 5.x, where `checkpw` re-runs `hashpw`).
   */
  datatype RawBcrypt = RawBcrypt(parses: seq<bv8> -> bool, rejects: string -> bool)

  /**
   What every bcrypt release agrees on: a salt carries at least the 22
   characters of its encoded salt part (besides the version and cost), and
   every hash bcrypt produces is itself a usable salt.
   */
  ghost predicate SaltFormat(p: RawBcrypt, h: Bcrypt.Hasher) {
    && (forall b :: p.parses(b) ==> |b| >= 22)
    && (forall pw, salt :: p.parses(h.hashpw(pw, salt)))
  }

  /** `bcrypt.checkpw(password, hashed)`, partial: ValueError on a refused password or when `hashed` is not a salt. */
  function CheckpwRaw(h: Bcrypt.Hasher, p: RawBcrypt, password: string, hashed: seq<bv8>): (r: PyResult<bool>)
    ensures r.Raised? <==> p.rejects(password) || !p.parses(hashed)
    ensures r.Raised? ==> r.error == ValueError
    ensures r.Value? ==> r.value == h.checkpw(password, hashed)
  {
    if p.rejects(password) || !p.parses(hashed) then Raised(ValueError) else Value(h.checkpw(password, hashed))
  }

  datatype Outcome = Checked(outcome: Auth.LoginOutcome) | ServerError(error: PyError)

  /** The `login` check as written: `checkpw` against `user[4].encode('utf-8')`. An exception leaves the session untouched. */
  function Login(app: Auth.App, h: Bcrypt.Hasher, p: RawBcrypt,
                 username: string, password: string): (r: (Auth.App, Outcome))
    ensures r.0.users == app.users
    ensures r.1 == Checked(Auth.LoggedIn) ==> r.0.session == Auth.SignedIn(username)
    ensures r.1 != Checked(Auth.LoggedIn) ==> r.0 == app
    ensures r.1.ServerError? ==> Users.Present(app.users.rows, username)
  {
    match Users.FetchOne(app.users.rows, username)
    case None => (app, Checked(Auth.InvalidCredentials))
    case Some(user) =>
      match EncodeUtf8(FetchedTuple(user)[4])
      case Raised(e) => (app, ServerError(e))
      case Value(hashed) =>
        match CheckpwRaw(h, p, password, hashed)
        case Raised(e) => (app, ServerError(e))
        case Value(true) => (Auth.App(app.users, Auth.SignedIn(username)), Checked(Auth.LoggedIn))
        case Value(false) => (app, Checked(Auth.InvalidCredentials))
  }

  /**
   As written, `.encode` on the username never raises; a login attempt
   raises ValueError exactly when the username exists and either its own
   bytes are not a bcrypt salt or bcrypt refuses the password; otherwise, for
   an existing username, the password is checked against the username's bytes.
   */
  lemma ChecksUsername(app: Auth.App, h: Bcrypt.Hasher, p: RawBcrypt,
                       username: string, password: string)
    ensures Login(app, h, p, username, password).1 != ServerError(AttributeError)
    ensures Login(app, h, p, username, password).1 == ServerError(ValueError)
            <==> Users.Present(app.users.rows, username) && (!p.parses(Utf8(username)) || p.rejects(password))
    ensures Users.Present(app.users.rows, username) && p.parses(Utf8(username)) && !p.rejects(password) ==>
            (Login(app, h, p, username, password).1 == Checked(Auth.LoggedIn)
             <==> h.checkpw(password, Utf8(username)))
    ensures !Users.Present(app.users.rows, username) ==>
            Login(app, h, p, username, password) == (app, Checked(Auth.InvalidCredentials))
  {
  }

  /** Same usernames in the same rows, whatever the other columns hold. */
  ghost predicate SameUsernames(a: seq<Users.User>, b: seq<Users.User>) {
    |a| == |b| && forall i :: 0 <= i < |a| ==> a[i].username == b[i].username
  }

  /** As written, the stored hashes play no part: two tables with the same usernames give the same outcome. */
  lemma IgnoresStoredHash(app1: Auth.App, app2: Auth.App, h: Bcrypt.Hasher, p: RawBcrypt,
                          username: string, password: string)
    requires SameUsernames(app1.users.rows, app2.users.rows)
    requires app1.session == app2.session
    ensures Login(app1, h, p, username, password).1 == Login(app2, h, p, username, password).1
    ensures Login(app1, h, p, username, password).0.session
            == Login(app2, h, p, username, password).0.session
  {
    assert Users.Present(app1.users.rows, username) <==> Users.Present(app2.users.rows, username) by {
      if Users.Present(app1.users.rows, username) {
        var i :| 0 <= i < |app1.users.rows| && app1.users.rows[i].username == username;
        assert app2.users.rows[i].username == username;
      }
      if Users.Present(app2.users.rows, username) {
        var i :| 0 <= i < |app2.users.rows| && app2.users.rows[i].username == username;
        assert app1.users.rows[i].username == username;
      }
    }
    ChecksUsername(app1, h, p, username, password);
    ChecksUsername(app2, h, p, username, password);
  }

  /**
   The discrepancy on a concrete input: on a fresh start, register alice with
   password "s3cret", then log in with that same password. The corrected check
   logs her in; the check as written raises ValueError, since "alice" is not a
   bcrypt salt.
   */
  lemma RegisteredUserCannotLogIn(h: Bcrypt.Hasher, p: RawBcrypt, salt: Bcrypt.Salt, profile: Users.Profile)
    requires Bcrypt.Sound(h)
    requires SaltFormat(p, h)
    ensures var app := Auth.Signup(Auth.Init, h, "alice", "s3cret", salt, profile).0;
            && Auth.Login(app, h, "alice", "s3cret").1 == Auth.LoggedIn
            && Login(app, h, p, "alice", "s3cret") == (app, ServerError(ValueError))
  {
    assert |Utf8("alice")| == 5;
  }

  /**
   The other side of the discrepancy: a username that is itself a bcrypt hash
   of some password x that bcrypt does not refuse logs in with x as written,
   whatever password it was registered with. Only the instances of `Sound`
   and `SaltFormat` at x and its salt are needed.
   */
  lemma HashShapedUsernameLogsIn(app: Auth.App, h: Bcrypt.Hasher, p: RawBcrypt,
                                 username: string, x: string, s: Bcrypt.Salt)
    requires h.checkpw(x, h.hashpw(x, s))
    requires p.parses(h.hashpw(x, s))
    requires Utf8(username) == h.hashpw(x, s)
    requires !p.rejects(x)
    requires Users.Present(app.users.rows, username)
    ensures Login(app, h, p, username, x) == (Auth.App(app.users, Auth.SignedIn(username)), Checked(Auth.LoggedIn))
  {
  }

  /**
   As written, a password bcrypt refuses tells existing usernames from
   unknown ones: an existing username answers a server error, an unknown one
   the ordinary refusal and its message.
   */
  lemma RejectedPasswordRevealsUsers(app: Auth.App, h: Bcrypt.Hasher, p: RawBcrypt,
                                     known: string, unknown: string, password: string)
    requires p.rejects(password)
    requires Users.Present(app.users.rows, known)
    requires !Users.Present(app.users.rows, unknown)
    ensures Login(app, h, p, known, password).1 == ServerError(ValueError)
    ensures Login(app, h, p, unknown, password).1 == Checked(Auth.InvalidCredentials)
  {
    ChecksUsername(app, h, p, known, password);
  }

  /**
   As written, every existing username that is not itself a bcrypt salt
   answers a server error whatever the password, while an unknown username
   gets the ordinary refusal: the response tells which usernames exist.
   */
  lemma AnyPasswordRevealsOrdinaryUsers(app: Auth.App, h: Bcrypt.Hasher, p: RawBcrypt,
                                        known: string, unknown: string, password: string)
    requires Users.Present(app.users.rows, known)
    requires !p.parses(Utf8(known))
    requires !Users.Present(app.users.rows, unknown)
    ensures Login(app, h, p, known, password).1 == ServerError(ValueError)
    ensures Login(app, h, p, unknown, password).1 == Checked(Auth.InvalidCredentials)
  {
    ChecksUsername(app, h, p, known, password);
  }
}

=== FILE: auth.dfy ===
/**
 The session gate of the application: signup, login, logout and the guard
 in front of the protected pages, as transitions over the pair (users table,
 session slot).

 The session slot is the `'username'` key of Flask's session: it is either
 absent (Anonymous) or holds the username of the last successful login.
 Rendering, flash categories and redirects are reduced to their outcome.
 */
module Auth {

  import opened Optional
  import Bcrypt
  import Users

  datatype Session = Anonymous | SignedIn(username: string)

  datatype App = App(users: Users.Table, session: Session)

  /** A freshly started application: an empty table and no one logged in. */
  const Init: App := App(Users.Empty, Anonymous)

  /** The session only ever names a user that has a row in the table. */
  ghost predicate SessionBacked(app: App) {
    app.session.SignedIn? ==> Users.Present(app.users.rows, app.session.username)
  }

  ghost predicate Inv(app: App) {
    Users.Valid(app.users) && SessionBacked(app)
  }

  // ---------------------------------------------------------------- signup

  datatype SignupOutcome = Created | UsernameTaken

  /** The flash message the signup route shows for each outcome. */
  function SignupMessage(o: SignupOutcome): (m: string)
    ensures m == "Username already exists. Try another one." <==> o == UsernameTaken
  {
    match o
    case Created => "User created successfully!"
    case UsernameTaken => "Username already exists. Try another one."
  }

  /** The POST branch of the `signup` route: `insert_user` on the submitted form; the session is untouched. */
  function Signup(app: App, h: Bcrypt.Hasher, username: string, password: string,
                  salt: Bcrypt.Salt, profile: Users.Profile): (r: (App, SignupOutcome))
    ensures r.0.session == app.session
    ensures r.1 == Created <==> !Users.Present(app.users.rows, username)
    ensures r.1 == UsernameTaken ==> r.0 == app
    ensures r.1 == Created ==> Users.FetchOne(r.0.users.rows, username).Some?
    ensures forall row :: row in app.users.rows ==> row in r.0.users.rows
    ensures Inv(app) ==> Inv(r.0)
  {
    var (t, ok) := Users.InsertUser(app.users, h, username, password, salt, profile);
    assert SessionBacked(app) ==> SessionBacked(App(t, app.session)) by {
      if SessionBacked(app) && app.session.SignedIn? {
        var i :| 0 <= i < |app.users.rows| && app.users.rows[i].username == app.session.username;
        assert app.users.rows[i] in t.rows;
      }
    }
    (App(t, app.session), if ok then Created else UsernameTaken)
  }

  // ----------------------------------------------------------------- login

  datatype LoginOutcome = LoggedIn | InvalidCredentials

  /** The flash message the login route shows for each outcome: one message for both failure causes. */
  function LoginMessage(o: LoginOutcome): (m: string)
    ensures m == "Invalid username or password." <==> o == InvalidCredentials
  {
    match o
    case LoggedIn => "Login successful!"
    case InvalidCredentials => "Invalid username or password."
  }

  /**
   The POST branch of the `login` route, with the evident intent of its check:
   fetch the row for the exact username and accept when `checkpw` accepts the
   password against the stored hash. Only then is the session set; on failure
   the whole state, including an earlier login, is left as it was.
   */
  function Login(app: App, h: Bcrypt.Hasher, username: string, password: string): (r: (App, LoginOutcome))
    ensures r.0.users == app.users
    ensures r.1 == LoggedIn ==> r.0.session == SignedIn(username)
    ensures r.1 == InvalidCredentials ==> r.0 == app
    ensures r.1 == LoggedIn ==> Users.Present(app.users.rows, username)
    ensures Users.UniqueUsernames(app.users.rows) ==>
      (r.1 == LoggedIn <==>
        exists i :: 0 <= i < |app.users.rows| && app.users.rows[i].username == username
                    && h.checkpw(password, app.users.rows[i].password))
    ensures Inv(app) ==> Inv(r.0)
  {
    match Users.FetchOne(app.users.rows, username)
    case Some(user) =>
      if h.checkpw(password, user.password) then (App(app.users, SignedIn(username)), LoggedIn)
      else
        assert Users.UniqueUsernames(app.users.rows) ==>
          forall i :: 0 <= i < |app.users.rows| && app.users.rows[i].username == username
                      ==> !h.checkpw(password, app.users.rows[i].password) by {
          if Users.UniqueUsernames(app.users.rows) {
            forall i | 0 <= i < |app.users.rows| && app.users.rows[i].username == username
              ensures !h.checkpw(password, app.users.rows[i].password)
            {
              Users.FetchOneUnique(app.users.rows, i);
            }
          }
        }
        (app, InvalidCredentials)
    case None => (app, InvalidCredentials)
  }

  // ---------------------------------------------------------------- logout

  /** The `logout` route: `session.pop('username', None)`, which succeeds whether or not anyone is logged in. */
  function Logout(app: App): (r: App)
    ensures r.session == Anonymous
    ensures r.users == app.users
    ensures Inv(app) ==> Inv(r)
  {
    App(app.users, Anonymous)
  }

  // ---------------------------------------------------------- guarded pages

  datatype Page = Dashboard | Borrow | Return | Membership

  /** The flash message each protected route shows to a visitor without a session. */
  function DeniedMessage(p: Page): (m: string)
    ensures "You must log in to " <= m
  {
    match p
    case Dashboard => "You must log in to access the dashboard."
    case Borrow => "You must log in to borrow a book."
    case Return => "You must log in to return a book."
    case Membership => "You must log in to buy a membership."
  }

  /** Each protected page has its own denial message. */
  lemma DeniedMessagesDistinct(p: Page, q: Page)
    ensures DeniedMessage(p) == DeniedMessage(q) <==> p == q
  {
  }

  datatype Response = Serve(page: Page, username: string) | RedirectToIndex(message: string)

  /** The check `'username' not in session` at the top of every protected route. */
  function Guard(s: Session, p: Page): (r: Response)
    ensures r.Serve? <==> s.SignedIn?
    ensures r.Serve? ==> r.page == p && r.username == s.username
    ensures r.RedirectToIndex? ==> r.message == DeniedMessage(p)
  {
    match s
    case Anonymous => RedirectToIndex(DeniedMessage(p))
    case SignedIn(u) => Serve(p, u)
  }

  datatype DashboardView = ShowDashboard(user: Option<Users.User>) | DashboardDenied(message: string)

  /** The `dashboard` route: the guard, then the row of the session's user. */
  function DashboardRoute(app: App): (r: DashboardView)
    ensures r.ShowDashboard? <==> app.session.SignedIn?
    ensures r.ShowDashboard? && SessionBacked(app) ==>
      r.user.Some? && r.user.value.username == app.session.username && r.user.value in app.users.rows
  {
    match Guard(app.session, Dashboard)
    case RedirectToIndex(m) => DashboardDenied(m)
    case Serve(_, u) => ShowDashboard(Users.FetchOne(app.users.rows, u))
  }

  // ------------------------------------------------------------------ runs

  /** The requests that change state. */
  datatype Request =
    | SignupRequest(username: string, password: string, salt: Bcrypt.Salt, profile: Users.Profile)
    | LoginRequest(username: string, password: string)
    | LogoutRequest

  function Step(app: App, h: Bcrypt.Hasher, req: Request): App {
    match req
    case SignupRequest(u, pw, salt, profile) => Signup(app, h, u, pw, salt, profile).0
    case LoginRequest(u, pw) => Login(app, h, u, pw).0
    case LogoutRequest => Logout(app)
  }

  /** The state after serving the requests in order. */
  function Run(app: App, h: Bcrypt.Hasher, reqs: seq<Request>): App
    decreases |reqs|
  {
    if |reqs| == 0 then app else Run(Step(app, h, reqs[0]), h, reqs[1..])
  }

  /** Every state reachable from a fresh start keeps the UNIQUE constraint, increasing ids and a backed session. */
  lemma {:induction false} RunPreservesInv(app: App, h: Bcrypt.Hasher, reqs: seq<Request>)
    requires Inv(app)
    ensures Inv(Run(app, h, reqs))
    decreases |reqs|
  {
    if |reqs| > 0 {
      RunPreservesInv(Step(app, h, reqs[0]), h, reqs[1..]);
    }
  }

  /** Users are never removed: every row of the start state is still in the table after any run. */
  lemma {:induction false} RunKeepsRows(app: App, h: Bcrypt.Hasher, reqs: seq<Request>)
    ensures forall row :: row in app.users.rows ==> row in Run(app, h, reqs).users.rows
    decreases |reqs|
  {
    if |reqs| > 0 {
      RunKeepsRows(Step(app, h, reqs[0]), h, reqs[1..]);
    }
  }

  lemma InitInv()
    ensures Inv(Init)
  {
  }

  // ------------------------------------------------------------ properties

  /** A user who has just registered can log in with the same password. */
  lemma SignupThenLogin(app: App, h: Bcrypt.Hasher, username: string, password: string,
                        salt: Bcrypt.Salt, profile: Users.Profile)
    requires Bcrypt.Sound(h)
    requires Signup(app, h, username, password, salt, profile).1 == Created
    ensures var app' := Signup(app, h, username, password, salt, profile).0;
            Login(app', h, username, password) == (App(app'.users, SignedIn(username)), LoggedIn)
  {
  }

  /** Two registrations of distinct fresh usernames both succeed and yield distinct ids. */
  lemma DistinctSignupsDistinctIds(app: App, h: Bcrypt.Hasher, u1: string, pw1: string, s1: Bcrypt.Salt,
                                   p1: Users.Profile, u2: string, pw2: string, s2: Bcrypt.Salt, p2: Users.Profile)
    requires Users.Valid(app.users)
    requires u1 != u2
    requires !Users.Present(app.users.rows, u1) && !Users.Present(app.users.rows, u2)
    ensures var (a1, o1) := Signup(app, h, u1, pw1, s1, p1);
            var (a2, o2) := Signup(a1, h, u2, pw2, s2, p2);
            && o1 == Created && o2 == Created
            && Users.FetchOne(a2.users.rows, u1).value.id != Users.FetchOne(a2.users.rows, u2).value.id
  {
  }

  /** Registering a taken username fails and keeps the first user's row exactly as it was. */
  lemma DuplicateSignupKeepsFirst(app: App, h: Bcrypt.Hasher, username: string, password: string,
                                  salt: Bcrypt.Salt, profile: Users.Profile)
    requires Users.Present(app.users.rows, username)
    ensures var (app', o) := Signup(app, h, username, password, salt, profile);
            o == UsernameTaken
            && Users.FetchOne(app'.users.rows, username) == Users.FetchOne(app.users.rows, username)
  {
  }

  /** An unknown username and a wrong password are indistinguishable: same state, same outcome, same message. */
  lemma FailuresIndistinguishable(app: App, h: Bcrypt.Hasher, unknown: string, pw1: string,
                                  known: string, pw2: string)
    requires !Users.Present(app.users.rows, unknown)
    requires Users.FetchOne(app.users.rows, known).Some?
    requires !h.checkpw(pw2, Users.FetchOne(app.users.rows, known).value.password)
    ensures Login(app, h, unknown, pw1) == Login(app, h, known, pw2) == (app, InvalidCredentials)
    ensures LoginMessage(Login(app, h, unknown, pw1).1) == LoginMessage(Login(app, h, known, pw2).1)
  {
  }

  /** Logout is idempotent and never touches the users table. */
  lemma LogoutIdempotent(app: App)
    ensures Logout(Logout(app)) == Logout(app)
    ensures Logout(app).users == app.users
  {
  }

  /**
   The per-session state machine: from Anonymous, the only way to a signed-in
   session is a successful login, and the session then names the submitted
   username. Signup never changes the session.
   */
  lemma SessionTransitions(app: App, h: Bcrypt.Hasher, req: Request)
    ensures req.SignupRequest? ==> Step(app, h, req).session == app.session
    ensures req.LogoutRequest? ==> Step(app, h, req).session == Anonymous
    ensures app.session.Anonymous? && Step(app, h, req).session.SignedIn? ==>
      req.LoginRequest? && Login(app, h, req.username, req.password).1 == LoggedIn
      && Step(app, h, req).session == SignedIn(req.username)
  {
  }

  /** The guard denies every page before login, serves it right after a login, and denies it again after logout. */
  lemma GuardFollowsSession(app: App, h: Bcrypt.Hasher, username: string, password: string, p: Page)
    ensures Guard(Init.session, p) == RedirectToIndex(DeniedMessage(p))
    ensures Login(app, h, username, password).1 == LoggedIn ==>
      Guard(Login(app, h, username, password).0.session, p) == Serve(p, username)
    ensures Guard(Logout(app).session, p).RedirectToIndex?
  {
  }

  /**
   The worked example: on a fresh start, alice registers and gets id 1, logs
   in with her password, is refused with a wrong one, and after logout the
   guard denies her the dashboard.
   */
  lemma AliceScenario(h: Bcrypt.Hasher, salt: Bcrypt.Salt, profile: Users.Profile)
    requires Bcrypt.Sound(h)
    requires !h.checkpw("wrong", h.hashpw("s3cret", salt))
    ensures var (a1, o1) := Signup(Init, h, "alice", "s3cret", salt, profile);
            && o1 == Created
            && Users.FetchOne(a1.users.rows, "alice").value.id == 1
            && var (a2, o2) := Login(a1, h, "alice", "s3cret");
               && o2 == LoggedIn
               && Login(a2, h, "alice", "wrong") == (a2, InvalidCredentials)
               && DashboardRoute(Logout(a2)) == DashboardDenied(DeniedMessage(Dashboard))
  {
  }
}

=== FILE: bcrypt.dfy ===
/**
 The password-hashing library as the credential store sees it.

 bcrypt's `hashpw` and `checkpw` are foreign code: their work factor, salt
 generation and constant-time comparison are not modelled. A `Hasher` bundles
 the two as uninterpreted total functions, and the only fact the core relies
 on about them, that a password is accepted against its own hash whatever the
 salt, is the predicate `Sound`. The salt that `bcrypt.gensalt()` draws at
 random is an explicit parameter. The UTF-8 encoding of the plaintext before
 hashing is folded into `hashpw`, which therefore takes the password string.
 */
module Bcrypt {

  /** The salt produced by `bcrypt.gensalt()`. */
  type Salt = seq<bv8>

  /** The self-describing hash that `bcrypt.hashpw` returns (a byte string). */
  type Digest = seq<bv8>

  datatype Hasher = Hasher(hashpw: (string, Salt) -> Digest, checkpw: (string, Digest) -> bool)

  /** The round-trip property of bcrypt: `checkpw(p, hashpw(p, s))` for every password and salt. */
  ghost predicate Sound(h: Hasher) {
    forall pw, salt :: h.checkpw(pw, h.hashpw(pw, salt))
  }

  /** `hash_password`: hashes a plaintext password with the given salt. */
  function HashPassword(h: Hasher, password: string, salt: Salt): (d: Digest)
    ensures Sound(h) ==> h.checkpw(password, d)
  {
    h.hashpw(password, salt)
  }
}

=== FILE: optional.dfy ===
/** The None/Some datatype used for "zero or one row" answers of the users table. */
module Optional {

  datatype Option<+T> = None | Some(value: T)
}

=== FILE: users.dfy ===
/**
 The credential store: the `users` table of the SQLite database and the
 `insert_user` operation that fills it.

 The table is kept as its rows in rowid order together with the
 AUTOINCREMENT counter that SQLite records in `sqlite_sequence`. Only the
 columns the core reads are named; the remaining profile columns travel
 along uninterpreted in a `Profile`.
 */
module Users {

  import opened Optional
  import Bcrypt

  /** The profile columns of a `users` row, stored as submitted and never interpreted by the core. */
  datatype Profile = Profile(
    firstName: string,
    secondName: string,
    thirdName: string,
    location: string,
    age: string,
    bestBooksCategory: string)

  /** One row of `users`: the system-assigned id, the unique username and the stored hash. */
  datatype User = User(id: nat, username: string, password: Bcrypt.Digest, profile: Profile)

  /** The `users` table: rows in rowid order, and the largest id ever handed out. */
  datatype Table = Table(rows: seq<User>, lastId: nat)

  /** A freshly created database. */
  const Empty: Table := Table([], 0)

  /** The UNIQUE constraint on the username column. */
  ghost predicate UniqueUsernames(rows: seq<User>) {
    forall i, j :: 0 <= i < j < |rows| ==> rows[i].username != rows[j].username
  }

  /** AUTOINCREMENT: ids are positive, grow with the rowid order and never exceed the counter. */
  ghost predicate IdsIncreasing(rows: seq<User>, lastId: nat) {
    && (forall i, j :: 0 <= i < j < |rows| ==> rows[i].id < rows[j].id)
    && (forall i :: 0 <= i < |rows| ==> 1 <= rows[i].id <= lastId)
  }

  ghost predicate Valid(t: Table) {
    UniqueUsernames(t.rows) && IdsIncreasing(t.rows, t.lastId)
  }

  /** Whether any row carries exactly this username (SQLite's BINARY collation: case-sensitive). */
  ghost predicate Present(rows: seq<User>, username: string) {
    exists i :: 0 <= i < |rows| && rows[i].username == username
  }

  /** `SELECT * FROM users WHERE username = ?`: the matching rows, in table order. */
  function Select(rows: seq<User>, username: string): (r: seq<User>)
    ensures |r| <= |rows|
    ensures forall k :: 0 <= k < |r| ==> r[k].username == username && r[k] in rows
    ensures forall i {:trigger rows[i].username} :: 0 <= i < |rows| && rows[i].username == username ==> rows[i] in r
    ensures |r| == 0 <==> !Present(rows, username)
  {
    if |rows| == 0 then []
    else if rows[0].username == username then [rows[0]] + Select(rows[1..], username)
    else
      var rest := Select(rows[1..], username);
      assert Present(rows, username) ==> Present(rows[1..], username) by {
        if Present(rows, username) {
          var i :| 0 <= i < |rows| && rows[i].username == username;
          assert rows[1..][i - 1] == rows[i];
        }
      }
      rest
  }

  /** `cursor.fetchone()` after that SELECT: the first matching row, if any. */
  function FetchOne(rows: seq<User>, username: string): (r: Option<User>)
    ensures r.Some? <==> Present(rows, username)
    ensures r.Some? ==> r.value.username == username && r.value in rows
  {
    var s := Select(rows, username);
    if |s| == 0 then None else Some(s[0])
  }

  /** Selection distributes over the concatenation of tables. */
  lemma {:induction false} SelectAppend(a: seq<User>, b: seq<User>, username: string)
    ensures Select(a + b, username) == Select(a, username) + Select(b, username)
    decreases |a|
  {
    if |a| == 0 {
      assert a + b == b;
    } else {
      assert (a + b)[1..] == a[1..] + b;
      SelectAppend(a[1..], b, username);
    }
  }

  /** Under the UNIQUE constraint a lookup by username yields zero or one row. */
  lemma {:induction false} SelectAtMostOne(rows: seq<User>, username: string)
    requires UniqueUsernames(rows)
    ensures |Select(rows, username)| <= 1
    decreases |rows|
  {
    if |rows| > 0 {
      assert UniqueUsernames(rows[1..]) by {
        forall i, j | 0 <= i < j < |rows| - 1
          ensures rows[1..][i].username != rows[1..][j].username
        {
          assert rows[1..][i] == rows[i + 1] && rows[1..][j] == rows[j + 1];
        }
      }
      SelectAtMostOne(rows[1..], username);
      if rows[0].username == username {
        assert !Present(rows[1..], username) by {
          forall i | 0 <= i < |rows| - 1 ensures rows[1..][i].username != username {
            assert rows[1..][i] == rows[i + 1];
          }
        }
      }
    }
  }

  /** Under the UNIQUE constraint the row fetched for a username is the one row that has it. */
  lemma FetchOneUnique(rows: seq<User>, i: int)
    requires UniqueUsernames(rows)
    requires 0 <= i < |rows|
    ensures FetchOne(rows, rows[i].username) == Some(rows[i])
  {
  }

  /** Lookup by username as a front-to-back scan, equivalent to the indexed lookup: the first row whose username matches. */
  method FindByUsername(t: Table, username: string) returns (r: Option<User>)
    ensures r == FetchOne(t.rows, username)
  {
    var i := 0;
    while i < |t.rows|
      invariant 0 <= i <= |t.rows|
      invariant Select(t.rows[..i], username) == []
    {
      if t.rows[i].username == username {
        SelectAppend(t.rows[..i], t.rows[i..], username);
        assert t.rows[..i] + t.rows[i..] == t.rows;
        return Some(t.rows[i]);
      }
      SelectAppend(t.rows[..i], [t.rows[i]], username);
      assert t.rows[..i + 1] == t.rows[..i] + [t.rows[i]];
      i := i + 1;
    }
    assert t.rows[..i] == t.rows;
    return None;
  }

  /** The ways the INSERT statement can fail: only the UNIQUE constraint can fire, since every NOT NULL column receives a string. */
  datatype InsertError = UniqueViolation

  datatype InsertResult = Inserted(table: Table) | Aborted(error: InsertError)

  /**
   The INSERT statement. SQLite checks the UNIQUE constraint as part of the
   statement; on a violation the statement is rolled back, so neither the
   rows nor the AUTOINCREMENT counter change. Otherwise the row is appended
   with the next id.
   */
  function InsertRow(t: Table, username: string, password: Bcrypt.Digest, profile: Profile): (r: InsertResult)
    ensures r.Aborted? <==> Present(t.rows, username)
    ensures r.Inserted? ==> r.table.rows == t.rows + [User(t.lastId + 1, username, password, profile)]
    ensures r.Inserted? ==> r.table.lastId == t.lastId + 1
  {
    if FetchOne(t.rows, username).Some? then Aborted(UniqueViolation)
    else Inserted(Table(t.rows + [User(t.lastId + 1, username, password, profile)], t.lastId + 1))
  }

  /** Appending a row with a fresh username makes it the one row found for that name and changes no other lookup. */
  lemma AppendFreshRow(rows: seq<User>, row: User)
    requires !Present(rows, row.username)
    ensures FetchOne(rows + [row], row.username) == Some(row)
    ensures forall other :: other != row.username ==> FetchOne(rows + [row], other) == FetchOne(rows, other)
  {
    SelectAppend(rows, [row], row.username);
    forall other | other != row.username
      ensures FetchOne(rows + [row], other) == FetchOne(rows, other)
    {
      SelectAppend(rows, [row], other);
    }
  }

  /** Appending a row with a fresh username and the next id keeps the table invariant, and the id is new. */
  lemma AppendKeepsValid(t: Table, row: User)
    requires !Present(t.rows, row.username)
    requires row.id == t.lastId + 1
    ensures Valid(t) ==> Valid(Table(t.rows + [row], t.lastId + 1))
    ensures Valid(t) ==> forall old_row :: old_row in t.rows ==> old_row.id != row.id
  {
  }

  /**
   `insert_user`: hashes the password, then tries the INSERT. Answers whether
   the row was created; on a failure nothing is committed.
   */
  function InsertUser(t: Table, h: Bcrypt.Hasher, username: string, password: string,
                      salt: Bcrypt.Salt, profile: Profile): (r: (Table, bool))
    ensures r.1 <==> !Present(t.rows, username)
    ensures !r.1 ==> r.0 == t
    ensures r.1 ==> FetchOne(r.0.rows, username)
                    == Some(User(t.lastId + 1, username, h.hashpw(password, salt), profile))
    ensures r.1 ==> forall other :: other != username ==> FetchOne(r.0.rows, other) == FetchOne(t.rows, other)
    ensures r.1 ==> forall row :: row in t.rows ==> row in r.0.rows
    ensures r.1 ==> |r.0.rows| == |t.rows| + 1
    ensures r.1 && Bcrypt.Sound(h) ==> h.checkpw(password, FetchOne(r.0.rows, username).value.password)
    ensures Valid(t) ==> Valid(r.0)
    ensures r.1 && Valid(t) ==> forall row :: row in t.rows ==> row.id != t.lastId + 1
  {
    var hashed := Bcrypt.HashPassword(h, password, salt);
    match InsertRow(t, username, hashed, profile)
    case Aborted(_) => (t, false)
    case Inserted(t') =>
      var row := User(t.lastId + 1, username, hashed, profile);
      AppendFreshRow(t.rows, row);
      AppendKeepsValid(t, row);
      (t', true)
  }
}
